=== FILE: README.md ===
# Traefik backend registrar, modelled in Dafny

`server.js` is a sidecar that keeps Consul's key/value store in step with the
Docker containers running on its host. Traefik reads the store. Every poll
does three things:

- It lists the running containers.
- It diffs their Ids against the Ids of the registration records it holds
  in memory (`state`).
- It runs `createService` for each container it has no record of, then
  `removeService` for each record Id whose container has gone.

`createService` looks at each published port. When the port's
`SERVICE_<private port>` label names a backend, it does the following:

- deletes the key `traefik/backends/<backend>/servers/<first 12 characters of the Id>/url`;
- sets that key to `http://<host>:<public port>`;
- pushes a record onto `state`.

`removeService` deletes the key of the first record carrying an Id and
splices that record out of `state`.

The project models this reconciliation core as pure functions over
immutable values:

- `KvStore` is the Consul store: a `map<string, string>` changed by
  `Delete` and `Put` calls. `Replay` applies a log of such calls.
- `Types` holds the container descriptors, the records, and `World`. A
  `World` is the record list, the store, and the log of every store call
  made so far.
- `Decimal` renders a port number as JavaScript does when it concatenates
  the number to a string.
- `Registrar` holds the key and value formats, the label gating, and
  `createService` / `removeService`.
- `Reconciler` holds the `toCreate`/`toRemove` diff and one cycle of
  `poll` (`Cycle`). `Poll` is a method with the two loops of the source.

The main results:

- After one cycle, the state has converged. Every record belongs to a
  running container. Every running container with a published, labelled
  port has a record.
- A converged world is a fixed point: a cycle against the same inventory
  makes no store call and changes no record. So running a cycle twice is
  the same as running it once.
- Each `removeService` call made by the loop finds a record.
- The store after a cycle is the old store with exactly the logged calls
  applied.
- A cycle leaves the routing of running containers alone. A key that no
  record of a gone container carries and no new registration writes keeps
  its presence and value.
- The removal loop deletes only keys of gone containers' records: each of its
  calls is a `kv.del` of the key of a record held before the cycle whose
  container is no longer running.
- No key of a gone container is left behind. After a cycle, the key of every
  record whose container has gone is absent from the store, and every store
  call after the creation loop is a delete.

What the code does, in the places where a reader might expect otherwise:

- The key prefix written at server.js:81 is `traefik/backends/`.
- A container with several labelled ports has several records. `toRemove`
  (server.js:59) repeats its Id once per record. Each `removeService` call
  takes out the first remaining record with that Id (server.js:102, 108). So
  all records of a gone container go in the same cycle; `CycleConverges`
  proves it.
- Convergence is by container Id, not by an exact set of keys:
  - A container that already has a record is never registered again.
  - Two ports labelled with the same backend write the same key. The later
    port's URL wins (`LastWriteWins`), and `state` keeps a record for each
    port.
  - Keys are shared in the same way by two containers with the same backend
    whose Ids agree in their first 12 characters. When one of them goes, its
    key is deleted, even though a record of a running container names the
    same key.

## Model

| member | source | states |
|---|---|---|
| Types.Ids | server.js:55 | `state.map(o=>o.Id)`: one Id per record, in record order. The contract spells out the `seq` body; `IdsAppend` and the diff lemmas use it. |
| Types.ContainerIds | server.js:56 | `containers.map(o=>o.Id)`: one Id per container, in inventory order. The contract spells out the `seq` body. |
| Reconciler.ToCreate | server.js:58 | A container is to be created iff it is in the inventory and its Id is not among the record Ids. Each such container is kept as often as it appears in the inventory; no other is kept. |
| Reconciler.ToRemove | server.js:59 | A record Id is to be removed iff its container is not in the inventory. It appears once per record that carries it. |
| Reconciler.ToCreateAppend | server.js:58 | `toCreate` keeps inventory order: filtering a concatenation concatenates the filtered parts. |
| Reconciler.ToRemoveAppend | server.js:59 | `toRemove` keeps record order in the same sense. |
| Reconciler.DiffExampleCreate | server.js:55-58 | Records for c1, c2, c3 and an inventory of c2, c3, c4 give `toCreate` = [c4]. |
| Reconciler.DiffExampleRemove | server.js:55-59 | The same inputs give `toRemove` = ["c1"]. |
| Decimal.NatToString | server.js:75 | A port number renders as a non-empty string of digits that starts with `0` only for zero, and is a single digit exactly when the number is below ten, so zero renders as `0`. |
| Decimal.ParseNatToString | server.js:84 | Reading the rendered digits back gives the port number. |
| Decimal.NatToStringInjective | server.js:84 | Distinct port numbers render differently. |
| Registrar.LabelKey | server.js:75 | The label looked up for a private port is `SERVICE_` followed by digits that read back as that port, with a leading `0` only for port 0. `LabelKeyInjective` is its partner. |
| Registrar.ServiceKey | server.js:81 | A key starts with `traefik/backends/` and the backend name, and ends in `/url`. `ServiceKeyParses` reads it back; `ServiceKeyInjective` follows. |
| Registrar.Url | server.js:84 | A value is `http://`, the host, `:`, then digits that read back as the public port, with a leading `0` only for port 0. `UrlInjective` follows. |
| Registrar.ShortId | server.js:81 | `substring(0, 12)` returns the first 12 characters of the Id, or the whole Id when it is shorter. |
| Registrar.ServiceKeyParses | server.js:81 | For a backend name without `/`, the key can be read back into that backend name and the short Id. |
| Registrar.ServiceKeyInjective | server.js:81 | Two such backends share a key only if both the names and the short Ids are equal. |
| Registrar.KeyFormatExample | server.js:81 | Backend `web` and Id `abcdef0123456789` give key `traefik/backends/web/servers/abcdef012345/url`. |
| Registrar.UrlInjective | server.js:84 | The stored URL determines the public port. |
| Registrar.UrlFormatExample | server.js:84 | Host `10.0.0.5` and port 32000 give the value `http://10.0.0.5:32000`. |
| Registrar.LabelKeyInjective | server.js:75 | Distinct private ports look up distinct `SERVICE_` labels. |
| Registrar.Registrations | server.js:73-92 | Every record of a container carries that container's Id and the host, and there are no more records than ports. `LabelGating` gives the per-port statement. |
| Registrar.RegistrationsMembers | server.js:73-92 | A record is registered iff some port is published and has a non-empty label, and the record has that label's backend, the port's public port and the matching key. |
| Registrar.BackendOf | server.js:73-77 | A port has a backend iff it is published and its `SERVICE_` label is present and non-empty; the backend is that label. `LabelGating` and `RegistrationsMembers` build on it. |
| Registrar.RecordOf | server.js:86-92 | The pushed object carries the container's Id, the backend as its name, the host and the public port. For a backend without `/`, its key reads back as that backend and the short Id. |
| Registrar.LabelGating | server.js:73-77 | A further port adds exactly one record at the end when its public port is set and its label is a non-empty string. Otherwise it adds nothing. |
| Registrar.Writes | server.js:83-84 | Registering a list of records makes two store calls per record. `WritesPairs`, `WritesKeys` and `LastWriteWins` say which calls. |
| Registrar.WritesPairs | server.js:83-84 | Record `i` owns calls `2i` and `2i+1`: `kv.del` of its key, then `kv.set` of its key to its URL. |
| Registrar.WritesKeys | server.js:83-84 | The store calls made for a list of records name exactly those records' keys. |
| Registrar.LastWriteWins | server.js:83-84 | After the calls, a written key holds the URL of the last record written under it. |
| Registrar.PortStep | server.js:73-92 | One pass of the port loop leaves the world alone when the port has no backend. Otherwise it pushes the port's record and logs a delete and then a set of its key, which then holds the port's URL. `PortStepRegisters` relates it to `Registrations`. |
| Registrar.PortStepRegisters | server.js:73-92 | One pass of the port loop deletes and then sets the gated port's key, and pushes its record. A port without a backend changes nothing. |
| Registrar.CreatePorts | server.js:73-93 | The port loop appends the gated records in port order. It logs their delete-then-set calls, and the store is the old one with those calls applied. |
| Registrar.CreateService | server.js:71-94 | `createService` on the whole container has the same effect over all its ports. |
| Registrar.CreateServiceEffect | server.js:71-94 | Existing records remain a prefix of the list. Keys not written are unchanged. Each written key holds its last record's URL. |
| KvStore.Step | server.js:83-84 | After `kv.del` (here and at line 106) the key is absent; after `kv.set` it holds the value. No other key changes. |
| KvStore.Replay | server.js:61-62 | After a log of calls, every key present holds either its old value or a value that some call of the log set. `ReplayFrame`, `ReplayAppend` and `LastWriteWins` give the finer statements. |
| KvStore.ReplayFrame | server.js:83-84 | A key that no store call names keeps its presence and value. |
| KvStore.ReplayAppend | server.js:61-62 | Applying two batches of calls in turn is applying their concatenation. |
| Registrar.FirstIndex | server.js:102 | `findIndex` returns the position of the first record with the Id. No earlier record has that Id. |
| Registrar.RemoveAt | server.js:108 | `splice(index, 1)` drops one copy of that record. Putting it back at the index restores the list. |
| Registrar.RemoveService | server.js:100-109 | Removes the first record with the Id and logs one delete of its key. That key is absent afterwards, and every other key is untouched. |
| Registrar.RemoveServiceCounts | server.js:102-108 | The Id loses exactly one occurrence. Records with any other Id are all kept, as often as before. |
| Reconciler.AllRegistrations | server.js:61 | Creating a list of containers adds only records of those containers. Each container with a gated port gets a record. No record is added when no container has a gated port. `AllRegistrationsSnoc` pins the records themselves. |
| Reconciler.AllRegistrationsSnoc | server.js:61 | Creating one more container appends exactly that container's registrations, so the records come container by container, in list order. |
| Reconciler.CreateAll | server.js:61 | The creation loop appends those records and applies exactly their store calls. |
| Reconciler.CreateEach | server.js:61 | The loop method computes the same world as the creation fold. |
| Reconciler.RemoveAll | server.js:62 | The removal loop takes exactly the listed Ids out, counting multiplicity. It keeps every record with an Id not in the list, and logs one call per Id. The store follows the log. `RemoveAllCallKeys` says which key each call names; `RemoveAllFrame` says which keys keep their presence and value. |
| Reconciler.RemoveAllOnlyDeletes | server.js:100-109 | Every store call the removal loop of line 62 makes is a delete. |
| Reconciler.RemoveAllKeepsAbsent | server.js:100-109 | The removal loop adds no key to the store. |
| Reconciler.RemoveAllDropsKeys | server.js:100-109 | The key of every record the removal loop takes out is absent from the store afterwards. |
| Reconciler.RemoveAllCallKeys | server.js:100-109 | The call the removal loop of line 62 makes for its `j`-th Id is a `kv.del` of the key of a record that carried that Id. |
| Reconciler.RemoveAllFrame | server.js:100-109 | A key that no record with a listed Id carries keeps its presence and value through the removal loop of line 62. |
| Reconciler.RemoveEach | server.js:62 | The loop method computes the same world as the removal fold, so every `findIndex` it does finds a record. |
| Reconciler.RemovalsCovered | server.js:55-62 | Every Id in `toRemove`, counted with multiplicity, belongs to a record when the removals start, so no `removeService` call runs off the list. |
| Reconciler.FollowsTransitive | server.js:61-62 | Successive batches of store calls compose. |
| Reconciler.Cycle | server.js:49-65 | One cycle only appends store calls, and the store afterwards is the old store with those calls applied. Which calls these are is stated by `CycleCalls`, `CycleRemovalCalls` and `CycleDeletesGone`; `CycleDropsGoneKeys` and `CycleFrame` say which keys change. |
| Reconciler.CycleCalls | server.js:58-62 | A cycle first makes the creation loop's calls, then one call per Id of `toRemove`, and every call after the creation loop is a delete. `CycleDeletesGone` says which keys those deletes name. |
| Reconciler.CycleRemovalCalls | server.js:59-62 | After the creation calls come one call per Id of `toRemove`, and the call for each Id deletes the key of a record that carried it. |
| Reconciler.CycleDeletesGone | server.js:55-62 | Every call after the creation loop deletes the key of a record held before the cycle whose container is no longer running. |
| Reconciler.CycleUnfolds | server.js:58-62 | A cycle is the removal loop over `toRemove` run after the creation loop, and every Id it removes is found. |
| Reconciler.CycleDropsGoneKeys | server.js:55-62 | After a cycle, the key of every record whose container is not in the inventory is absent from the store. |
| Reconciler.CycleFrame | server.js:55-62 | A key that no record of a gone container carries and that no new registration writes keeps its presence and value through a cycle. |
| Reconciler.CycleConverges | server.js:55-62 | After a cycle, no record has a gone container and every running container with a gated port has a record. Records of running containers survive. |
| Reconciler.ConvergedIsFixpoint | server.js:55-62 | In a converged world, a cycle makes no store call and leaves the records as they were. |
| Reconciler.CycleIdempotent | server.js:49-65 | A second cycle against the same inventory changes nothing. |
| Reconciler.Poll | server.js:49-65 | The poll's two loops compute the cycle, end converged, and only append store calls. |

## Left out

- Session handling is not modelled: creating the session, `consul.session.renew`, and the `acquire` tag on the write. Lease expiry happens in Consul, outside this process. Every `Put` is modelled as succeeding.
- `getHostIpAddress` is not modelled: the AWS metadata request and its exit on failure. The host address is a parameter.
- `docker.listContainers` is not modelled. The inventory is a parameter.
- Failing Docker or Consul calls are not modelled. In the source, a rejected promise reaches the `unhandledRejection` handler, and the process exits.
- The startup delay, the 500 ms and 5 s timers, and the loop that reschedules `poll` are left out. `Cycle` is one poll.
- The health endpoint `/ok` and its flag are left out: they are not part of reconciliation. The endpoint reads `state.generateFailure`, while the code sets `generateFailure`, so the endpoint always answers 200.
- Signal and `unhandledRejection` handling, logging, and the console banner are left out.
- Registrar.RemoveService: requires a record with the Id. With no match, `findIndex` gives -1 and `state[-1].Name` throws. RemovalsCovered shows the poll loop never makes such a call.
- A missing `PublicPort` (`undefined`) and a port 0 are both unpublished, and both are modelled as `publicPort == 0`.
- Registrar.ShortId: `substring(0, 12)` counts UTF-16 code units, while the model counts Dafny characters. The two agree on Docker's hexadecimal Ids.
- Container Ids are opaque strings. The model does not assume they are distinct within one inventory.

=== FILE: decimal.dfy ===
/**
 Decimal rendering of non-negative integers, as JavaScript performs it when a
 port number is concatenated to a string (`'SERVICE_' + port.PrivatePort`,
 `':' + port.PublicPort`): shortest form, no sign, no leading zeros.
 */
module Decimal {

  predicate IsDigit(c: char) {
    '0' <= c <= '9'
  }

  predicate AllDigits(s: string) {
    forall i :: 0 <= i < |s| ==> IsDigit(s[i])
  }

  function DigitChar(d: nat): (c: char)
    requires d < 10
    ensures IsDigit(c)
    ensures c as int - '0' as int == d
  {
    ('0' as int + d) as char
  }

  /** The decimal text of `n`; it is `"0"` only for zero and otherwise starts with a non-zero digit. */
  function NatToString(n: nat): (s: string)
    ensures |s| >= 1
    ensures AllDigits(s)
    ensures s[0] == '0' <==> n == 0
    ensures |s| == 1 <==> n < 10
    decreases n
  {
    if n < 10 then [DigitChar(n)] else NatToString(n / 10) + [DigitChar(n % 10)]
  }

  /** Reads a string of decimal digits back as a number (the inverse of `NatToString`). */
  function ParseDigits(s: string): nat
    requires AllDigits(s)
  {
    if s == [] then 0 else 10 * ParseDigits(s[..|s| - 1]) + (s[|s| - 1] as int - '0' as int)
  }

  lemma {:induction false} ParseNatToString(n: nat)
    ensures ParseDigits(NatToString(n)) == n
    decreases n
  {
    var s := NatToString(n);
    if n >= 10 {
      assert s[..|s| - 1] == NatToString(n / 10);
      ParseNatToString(n / 10);
    }
  }

  /** Distinct numbers have distinct decimal texts. */
  lemma NatToStringInjective(a: nat, b: nat)
    ensures NatToString(a) == NatToString(b) ==> a == b
  {
    ParseNatToString(a);
    ParseNatToString(b);
  }
}

=== FILE: kv_store.dfy ===
/**
 The Consul key/value store, as this sidecar uses it: a map from keys to
 values changed only by `kv.del` and `kv.set`. Session locking (`acquire`)
 is not modelled, so a `Put` always succeeds.
 */
module KvStore {

  type Store = map<string, string>

  /** One store call: `consul.kv.del(key)` or `consul.kv.set({key, value})`. */
  datatype StoreOp = Delete(key: string) | Put(key: string, value: string)

  function Step(store: Store, op: StoreOp): (r: Store)
    ensures op.Delete? ==> op.key !in r
    ensures op.Put? ==> op.key in r && r[op.key] == op.value
    ensures forall k :: k != op.key ==> (k in r <==> k in store)
    ensures forall k :: k != op.key && k in r ==> r[k] == store[k]
  {
    match op
    case Delete(k) => store - {k}
    case Put(k, v) => store[k := v]
  }

  /** The store after the calls `ops`, applied first to last. */
  function Replay(store: Store, ops: seq<StoreOp>): (r: Store)
    ensures forall k :: k in r ==> Kept(store, k, r[k]) || PutBy(ops, k, r[k])
    decreases |ops|
  {
    if ops == [] then store
    else
      var before := Replay(store, ops[..|ops| - 1]);
      var last := ops[|ops| - 1];
      assert forall k, v :: PutBy(ops[..|ops| - 1], k, v) ==> PutBy(ops, k, v) by {
        forall k, v | PutBy(ops[..|ops| - 1], k, v) ensures PutBy(ops, k, v) {
          var i :| 0 <= i < |ops| - 1 && ops[..|ops| - 1][i] == Put(k, v);
          assert ops[i] == Put(k, v);
        }
      }
      assert last.Put? ==> ops[|ops| - 1] == Put(last.key, last.value);
      Step(before, last)
  }

  /** Key `k` held value `v` in `store` already. */
  predicate Kept(store: Store, k: string, v: string) {
    k in store && store[k] == v
  }

  /** Some call of `ops` sets key `k` to `v`. */
  predicate PutBy(ops: seq<StoreOp>, k: string, v: string) {
    exists i :: 0 <= i < |ops| && ops[i] == Put(k, v)
  }

  /** True iff no call in `ops` names key `k`. */
  predicate Untouched(ops: seq<StoreOp>, k: string) {
    forall i :: 0 <= i < |ops| ==> ops[i].key != k
  }

  /** Replaying two batches one after the other is replaying their concatenation. */
  lemma {:induction false} ReplayAppend(store: Store, a: seq<StoreOp>, b: seq<StoreOp>)
    ensures Replay(store, a + b) == Replay(Replay(store, a), b)
    decreases |b|
  {
    if b == [] {
      assert a + b == a;
    } else {
      assert (a + b)[..|a + b| - 1] == a + b[..|b| - 1];
      ReplayAppend(store, a, b[..|b| - 1]);
    }
  }

  /** A key that no call names keeps its presence and its value. */
  lemma {:induction false} ReplayFrame(store: Store, ops: seq<StoreOp>, k: string)
    requires Untouched(ops, k)
    ensures k in Replay(store, ops) <==> k in store
    ensures k in store ==> Replay(store, ops)[k] == store[k]
    decreases |ops|
  {
    if ops != [] {
      ReplayFrame(store, ops[..|ops| - 1], k);
      assert ops[|ops| - 1].key != k;
    }
  }
}

=== FILE: reconciler.dfy ===
/**
 One reconciliation cycle of `poll` in server.js, with the session renewal,
 the Docker call and the timer taken out: diff the record list against the
 container inventory, register every new container, then deregister every
 record whose container is gone.
 */
module Reconciler {
  import opened KvStore
  import opened Types
  import opened Registrar

  /** `containers.filter(o => !actual.includes(o.Id))`: the containers with no record yet. */
  function ToCreate(containers: seq<Container>, actual: seq<string>): (r: seq<Container>)
    ensures forall c :: multiset(r)[c] == if c.id in actual then 0 else multiset(containers)[c]
    ensures forall c :: c in r <==> c in containers && c.id !in actual
    decreases |containers|
  {
    if containers == [] then []
    else
      assert containers == [containers[0]] + containers[1..];
      (if containers[0].id in actual then [] else [containers[0]]) + ToCreate(containers[1..], actual)
  }

  /** `actual.filter(o => !needed.includes(o))`: the record Ids whose container is gone, one per record. */
  function ToRemove(actual: seq<string>, needed: seq<string>): (r: seq<string>)
    ensures forall x :: multiset(r)[x] == if x in needed then 0 else multiset(actual)[x]
    ensures forall x :: x in r <==> x in actual && x !in needed
    decreases |actual|
  {
    if actual == [] then []
    else
      assert actual == [actual[0]] + actual[1..];
      (if actual[0] in needed then [] else [actual[0]]) + ToRemove(actual[1..], needed)
  }

  /** `toCreate` keeps inventory order: it distributes over concatenation. */
  lemma {:induction false} ToCreateAppend(a: seq<Container>, b: seq<Container>, actual: seq<string>)
    ensures ToCreate(a + b, actual) == ToCreate(a, actual) + ToCreate(b, actual)
    decreases |a|
  {
    if a == [] {
      assert a + b == b;
    } else {
      var head := if a[0].id in actual then [] else [a[0]];
      assert (a + b)[0] == a[0] && (a + b)[1..] == a[1..] + b;
      assert ToCreate(a + b, actual) == head + ToCreate(a[1..] + b, actual);
      ToCreateAppend(a[1..], b, actual);
      SeqAssoc(head, ToCreate(a[1..], actual), ToCreate(b, actual));
    }
  }

  /** `toRemove` keeps record order: it distributes over concatenation. */
  lemma {:induction false} ToRemoveAppend(a: seq<string>, b: seq<string>, needed: seq<string>)
    ensures ToRemove(a + b, needed) == ToRemove(a, needed) + ToRemove(b, needed)
    decreases |a|
  {
    if a == [] {
      assert a + b == b;
    } else {
      var head := if a[0] in needed then [] else [a[0]];
      assert (a + b)[0] == a[0] && (a + b)[1..] == a[1..] + b;
      assert ToRemove(a + b, needed) == head + ToRemove(a[1..] + b, needed);
      ToRemoveAppend(a[1..], b, needed);
      SeqAssoc(head, ToRemove(a[1..], needed), ToRemove(b, needed));
    }
  }

  /** The worked example, creation side: records for c1, c2, c3 and an inventory of c2, c3, c4 create c4 only. */
  lemma DiffExampleCreate(c2: Container, c3: Container, c4: Container)
    requires c2.id == "c2" && c3.id == "c3" && c4.id == "c4"
    ensures ToCreate([c2, c3, c4], ["c1", "c2", "c3"]) == [c4]
  {
    var actual: seq<string> := ["c1", "c2", "c3"];
    var cs := [c2, c3, c4];
    assert cs[1..] == [c3, c4] && cs[1..][1..] == [c4] && cs[1..][1..][1..] == [];
    assert "c4" !in actual by {
      assert actual[0][1] != '4' && actual[1][1] != '4' && actual[2][1] != '4';
    }
    assert ToCreate([c4], actual) == [c4] by {
      assert [c4][1..] == [];
    }
    assert ToCreate([c3, c4], actual) == [c4] by {
      assert actual[2] == c3.id;
      assert [c3, c4][1..] == [c4];
    }
    assert actual[1] == c2.id;
  }

  /** The worked example, removal side: only c1's record is to go. */
  lemma DiffExampleRemove()
    ensures ToRemove(["c1", "c2", "c3"], ["c2", "c3", "c4"]) == ["c1"]
  {
    var actual: seq<string> := ["c1", "c2", "c3"];
    var needed: seq<string> := ["c2", "c3", "c4"];
    assert actual[1..] == ["c2", "c3"] && actual[1..][1..] == ["c3"] && actual[1..][1..][1..] == [];
    assert "c1" !in needed by {
      assert needed[0][1] != '1' && needed[1][1] != '1' && needed[2][1] != '1';
    }
    assert ToRemove(["c3"], needed) == [];
    assert ToRemove(["c2", "c3"], needed) == [];
  }

  /** Every record `createService` is asked to make, container by container. */
  function AllRegistrations(cs: seq<Container>, host: string): (r: seq<Record>)
    ensures forall i :: 0 <= i < |r| ==> r[i].id in ContainerIds(cs)
    ensures forall c :: c in cs && Registrations(c, host, c.ports) != [] ==> c.id in Ids(r)
    ensures (forall c :: c in cs ==> Registrations(c, host, c.ports) == []) ==> r == []
    decreases |cs|
  {
    if cs == [] then []
    else
      var rest := AllRegistrations(cs[1..], host);
      RegistrationsThenRest(cs, host, rest);
      Registrations(cs[0], host, cs[0].ports) + rest
  }

  /**
   The creation loop registers container after container: appending a
   container appends exactly that container's registrations.
   */
  lemma {:induction false} AllRegistrationsSnoc(cs: seq<Container>, c: Container, host: string)
    ensures AllRegistrations(cs + [c], host) == AllRegistrations(cs, host) + Registrations(c, host, c.ports)
    decreases |cs|
  {
    var here := Registrations(c, host, c.ports);
    if cs == [] {
      assert [c][1..] == [];
      assert AllRegistrations([c], host) == here + [];
      assert cs + [c] == [c];
    } else {
      var head := Registrations(cs[0], host, cs[0].ports);
      assert (cs + [c])[0] == cs[0];
      assert (cs + [c])[1..] == cs[1..] + [c];
      AllRegistrationsSnoc(cs[1..], c, host);
      SeqAssoc(head, AllRegistrations(cs[1..], host), here);
    }
  }

  lemma RegistrationsThenRest(cs: seq<Container>, host: string, rest: seq<Record>)
    requires cs != []
    requires forall i :: 0 <= i < |rest| ==> rest[i].id in ContainerIds(cs[1..])
    requires forall c :: c in cs[1..] && Registrations(c, host, c.ports) != [] ==> c.id in Ids(rest)
    requires (forall c :: c in cs[1..] ==> Registrations(c, host, c.ports) == []) ==> rest == []
    ensures var r := Registrations(cs[0], host, cs[0].ports) + rest;
      && (forall i :: 0 <= i < |r| ==> r[i].id in ContainerIds(cs))
      && (forall c :: c in cs && Registrations(c, host, c.ports) != [] ==> c.id in Ids(r))
      && ((forall c :: c in cs ==> Registrations(c, host, c.ports) == []) ==> r == [])
  {
    var here := Registrations(cs[0], host, cs[0].ports);
    var r := here + rest;
    IdsAppend(here, rest);
    forall x | x in ContainerIds(cs[1..])
      ensures x in ContainerIds(cs)
    {
      var k :| 0 <= k < |cs[1..]| && ContainerIds(cs[1..])[k] == x;
      assert ContainerIds(cs)[k + 1] == x;
    }
    assert ContainerIds(cs)[0] == cs[0].id;
    if here != [] {
      assert Ids(here)[0] == cs[0].id;
    }
    forall i | 0 <= i < |r|
      ensures r[i].id in ContainerIds(cs)
    {
      if i >= |here| {
        assert r[i] == rest[i - |here|];
      }
    }
    forall c | c in cs && Registrations(c, host, c.ports) != []
      ensures c.id in Ids(r)
    {
      if c != cs[0] {
        assert c in cs[1..];
      }
    }
  }

  /** Some calls were made after `w`, and `r`'s store is `w`'s with exactly those calls replayed. */
  predicate Follows(w: World, r: World) {
    && |w.ops| <= |r.ops|
    && r.ops[..|w.ops|] == w.ops
    && r.store == Replay(w.store, r.ops[|w.ops|..])
  }

  lemma FollowsTransitive(a: World, b: World, c: World)
    requires Follows(a, b) && Follows(b, c)
    ensures Follows(a, c)
  {
    var x, y := b.ops[|a.ops|..], c.ops[|b.ops|..];
    assert c.ops[..|b.ops|] == b.ops;
    assert c.ops[..|a.ops|] == b.ops[..|a.ops|];
    assert c.ops[|a.ops|..] == x + y;
    ReplayAppend(a.store, x, y);
  }

  /** `for (container of toCreate) createService(container)`, as a fold. */
  function CreateAll(cs: seq<Container>, host: string, w: World): (r: World)
    ensures r.state == w.state + AllRegistrations(cs, host)
    ensures r.ops == w.ops + Writes(AllRegistrations(cs, host))
    ensures r.store == Replay(w.store, Writes(AllRegistrations(cs, host)))
    decreases |cs|
  {
    if cs == [] then w
    else
      var r := CreateAll(cs[1..], host, CreateService(cs[0], host, w));
      CreateThenRest(cs, host, w, r);
      r
  }

  lemma CreateThenRest(cs: seq<Container>, host: string, w: World, r: World)
    requires cs != []
    requires var next := CreateService(cs[0], host, w);
      var rest := AllRegistrations(cs[1..], host);
      && r.state == next.state + rest
      && r.ops == next.ops + Writes(rest)
      && r.store == Replay(next.store, Writes(rest))
    ensures r.state == w.state + AllRegistrations(cs, host)
    ensures r.ops == w.ops + Writes(AllRegistrations(cs, host))
    ensures r.store == Replay(w.store, Writes(AllRegistrations(cs, host)))
  {
    var here := Registrations(cs[0], host, cs[0].ports);
    var rest := AllRegistrations(cs[1..], host);
    var wh, wr := Writes(here), Writes(rest);
    assert r.state == (w.state + here) + rest;
    SeqAssoc(w.state, here, rest);
    assert r.ops == (w.ops + wh) + wr;
    SeqAssoc(w.ops, wh, wr);
    WritesAppend(here, rest);
    ReplayAppend(w.store, wh, wr);
  }

  /** `for (container of toRemove) removeService(container)`, as a fold. */
  function RemoveAll(xs: seq<string>, w: World): (r: World)
    requires multiset(xs) <= multiset(Ids(w.state))
    ensures multiset(Ids(r.state)) == multiset(Ids(w.state)) - multiset(xs)
    ensures multiset(r.state) <= multiset(w.state)
    ensures forall rec: Record :: rec.id !in xs ==> multiset(r.state)[rec] == multiset(w.state)[rec]
    ensures |r.ops| == |w.ops| + |xs|
    ensures Follows(w, r)
    decreases |xs|
  {
    if xs == [] then
      assert w.ops[|w.ops|..] == [];
      w
    else
      RemoveFirstReady(xs, w);
      var r := RemoveAll(xs[1..], RemoveService(xs[0], w));
      RemoveThenRest(xs, w, r);
      RemoveOpsThenRest(xs, w, r);
      r
  }

  /** While Ids to remove are covered by records, the next removal has a record to find. */
  lemma RemoveFirstReady(xs: seq<string>, w: World)
    requires xs != []
    requires multiset(xs) <= multiset(Ids(w.state))
    ensures xs[0] in Ids(w.state)
    ensures multiset(xs[1..]) <= multiset(Ids(RemoveService(xs[0], w).state))
  {
    assert xs == [xs[0]] + xs[1..];
    assert xs[0] in multiset(Ids(w.state));
    RemoveServiceCounts(xs[0], w);
  }

  lemma RemoveThenRest(xs: seq<string>, w: World, r: World)
    requires xs != [] && xs[0] in Ids(w.state)
    requires var next := RemoveService(xs[0], w);
      && multiset(Ids(r.state)) == multiset(Ids(next.state)) - multiset(xs[1..])
      && multiset(r.state) <= multiset(next.state)
      && (forall rec: Record :: rec.id !in xs[1..] ==> multiset(r.state)[rec] == multiset(next.state)[rec])
    ensures multiset(Ids(r.state)) == multiset(Ids(w.state)) - multiset(xs)
    ensures multiset(r.state) <= multiset(w.state)
    ensures forall rec: Record :: rec.id !in xs ==> multiset(r.state)[rec] == multiset(w.state)[rec]
  {
    var next := RemoveService(xs[0], w);
    RemoveServiceCounts(xs[0], w);
    RemoveCountsThenRest(xs, w.state, next.state, r.state);
  }

  lemma RemoveOpsThenRest(xs: seq<string>, w: World, r: World)
    requires xs != [] && xs[0] in Ids(w.state)
    requires var next := RemoveService(xs[0], w);
      && |r.ops| == |next.ops| + |xs[1..]|
      && Follows(next, r)
    ensures |r.ops| == |w.ops| + |xs|
    ensures Follows(w, r)
  {
    var next := RemoveService(xs[0], w);
    assert Follows(w, next) by {
      assert next.ops[|w.ops|..] == [Delete(w.state[FirstIndex(w.state, xs[0])].key)];
    }
    FollowsTransitive(w, next, r);
  }

  lemma RemoveCountsThenRest(xs: seq<string>, s: seq<Record>, next: seq<Record>, r: seq<Record>)
    requires xs != []
    requires multiset(Ids(next)) == multiset(Ids(s)) - multiset{xs[0]}
    requires multiset(next) <= multiset(s)
    requires forall rec: Record :: rec.id != xs[0] ==> multiset(next)[rec] == multiset(s)[rec]
    requires multiset(Ids(r)) == multiset(Ids(next)) - multiset(xs[1..])
    requires multiset(r) <= multiset(next)
    requires forall rec: Record :: rec.id !in xs[1..] ==> multiset(r)[rec] == multiset(next)[rec]
    ensures multiset(Ids(r)) == multiset(Ids(s)) - multiset(xs)
    ensures multiset(r) <= multiset(s)
    ensures forall rec: Record :: rec.id !in xs ==> multiset(r)[rec] == multiset(s)[rec]
  {
    assert xs == [xs[0]] + xs[1..];
    assert multiset(xs) == multiset{xs[0]} + multiset(xs[1..]);
    forall rec: Record | rec.id !in xs
      ensures multiset(r)[rec] == multiset(s)[rec]
    {
      assert rec.id != xs[0] && rec.id !in xs[1..];
    }
  }

  /** The removal loop calls only `kv.del`: every call it logs is a `Delete`. */
  lemma {:induction false} RemoveAllOnlyDeletes(xs: seq<string>, w: World)
    requires multiset(xs) <= multiset(Ids(w.state))
    ensures OnlyDeletes(RemoveAll(xs, w).ops, |w.ops|)
    decreases |xs|
  {
    if xs != [] {
      RemoveFirstReady(xs, w);
      var next := RemoveService(xs[0], w);
      var r := RemoveAll(xs[1..], next);
      assert RemoveAll(xs, w) == r;
      RemoveAllOnlyDeletes(xs[1..], next);
      var gone := w.state[FirstIndex(w.state, xs[0])];
      DeletesThenRest(w.ops, gone.key, next.ops, r.ops);
    }
  }

  /** Every call of `ops` from position `from` on is a `kv.del`. */
  predicate OnlyDeletes(ops: seq<StoreOp>, from: nat) {
    forall i :: from <= i < |ops| ==> ops[i].Delete?
  }

  lemma DeletesThenRest(before: seq<StoreOp>, key: string, next: seq<StoreOp>, after: seq<StoreOp>)
    requires next == before + [Delete(key)]
    requires |next| <= |after| && after[..|next|] == next
    requires OnlyDeletes(after, |next|)
    ensures OnlyDeletes(after, |before|)
  {
    assert after[|before|] == next[|before|];
  }

  /** Call `op` deletes the key of some record of `state` with Id `id`. */
  predicate CallDeletes(state: seq<Record>, id: string, op: StoreOp) {
    exists rec :: rec in state && rec.id == id && op == Delete(rec.key)
  }

  /** From position `from` on, the call for each Id of `xs` deletes the key of a record of `state` with that Id. */
  predicate DeletesOf(state: seq<Record>, xs: seq<string>, ops: seq<StoreOp>, from: nat) {
    forall i :: from <= i < |ops| && i - from < |xs| ==> CallDeletes(state, xs[i - from], ops[i])
  }

  /**
   Which keys the removal loop deletes: the call made for the `j`-th listed
   Id is a `kv.del` of the key of a record that carried that Id.
   */
  lemma {:induction false} RemoveAllCallKeys(xs: seq<string>, w: World)
    requires multiset(xs) <= multiset(Ids(w.state))
    ensures DeletesOf(w.state, xs, RemoveAll(xs, w).ops, |w.ops|)
    decreases |xs|
  {
    if xs != [] {
      RemoveFirstReady(xs, w);
      var next := RemoveService(xs[0], w);
      var r := RemoveAll(xs[1..], next);
      assert RemoveAll(xs, w) == r;
      RemoveAllCallKeys(xs[1..], next);
      RemoveServiceCounts(xs[0], w);
      var gone := w.state[FirstIndex(w.state, xs[0])];
      assert r.ops[|w.ops|] == next.ops[|w.ops|] by {
        assert r.ops[..|next.ops|] == next.ops;
      }
      DeletesOfCons(w.state, next.state, xs, r.ops, |w.ops|, gone);
    }
  }

  /** The head removal's call, followed by calls for the rest made on fewer records. */
  lemma DeletesOfCons(state: seq<Record>, nextState: seq<Record>, xs: seq<string>, ops: seq<StoreOp>, from: nat, gone: Record)
    requires xs != []
    requires multiset(nextState) <= multiset(state)
    requires gone in state && gone.id == xs[0]
    requires from < |ops| && ops[from] == Delete(gone.key)
    requires DeletesOf(nextState, xs[1..], ops, from + 1)
    ensures DeletesOf(state, xs, ops, from)
  {
    forall i | from <= i < |ops| && i - from < |xs|
      ensures CallDeletes(state, xs[i - from], ops[i])
    {
      if i == from {
        assert gone in state && gone.id == xs[i - from] && ops[i] == Delete(gone.key);
      } else {
        var op, x := ops[i], xs[1..][i - (from + 1)];
        assert CallDeletes(nextState, x, op);
        var rec :| rec in nextState && rec.id == x && op == Delete(rec.key);
        assert rec in multiset(nextState);
        assert x == xs[i - from];
        assert rec in state;
      }
    }
  }

  /** The removal loop adds no key to the store. */
  lemma {:induction false} RemoveAllKeepsAbsent(xs: seq<string>, w: World)
    requires multiset(xs) <= multiset(Ids(w.state))
    ensures var r := RemoveAll(xs, w);
      forall k :: k !in w.store ==> k !in r.store
    decreases |xs|
  {
    if xs != [] {
      RemoveFirstReady(xs, w);
      RemoveAllKeepsAbsent(xs[1..], RemoveService(xs[0], w));
    }
  }

  /**
   No orphaned key: every record the removal loop takes out (one copy of it,
   counting multiplicity) has its key absent from the store afterwards.
   */
  lemma {:induction false} RemoveAllDropsKeys(xs: seq<string>, w: World)
    requires multiset(xs) <= multiset(Ids(w.state))
    ensures var r := RemoveAll(xs, w);
      forall rec: Record :: multiset(r.state)[rec] < multiset(w.state)[rec] ==> rec.key !in r.store
    decreases |xs|
  {
    if xs != [] {
      RemoveFirstReady(xs, w);
      var next := RemoveService(xs[0], w);
      var r := RemoveAll(xs[1..], next);
      RemoveAllDropsKeys(xs[1..], next);
      RemoveAllKeepsAbsent(xs[1..], next);
      var gone := w.state[FirstIndex(w.state, xs[0])];
      assert multiset(next.state) == multiset(w.state) - multiset{gone};
      forall rec: Record | multiset(r.state)[rec] < multiset(w.state)[rec]
        ensures rec.key !in r.store
      {
        if multiset(next.state)[rec] < multiset(w.state)[rec] {
          assert rec == gone;
          assert gone.key !in next.store;
        }
      }
    }
  }

  /** No record of `state` whose Id is listed in `xs` has key `k`. */
  predicate Spares(state: seq<Record>, xs: seq<string>, k: string) {
    forall rec :: rec in state && rec.id in xs ==> rec.key != k
  }

  /**
   The removal loop deletes only the keys of the records it takes out: a key
   that no record with a listed Id carries keeps its presence and value.
   */
  lemma {:induction false} RemoveAllFrame(xs: seq<string>, w: World, k: string)
    requires multiset(xs) <= multiset(Ids(w.state))
    requires Spares(w.state, xs, k)
    ensures k in RemoveAll(xs, w).store <==> k in w.store
    ensures k in w.store ==> RemoveAll(xs, w).store[k] == w.store[k]
    decreases |xs|
  {
    if xs != [] {
      RemoveFirstReady(xs, w);
      var next := RemoveService(xs[0], w);
      var gone := w.state[FirstIndex(w.state, xs[0])];
      assert gone.key != k by {
        assert gone in w.state && gone.id == xs[0] && xs[0] in xs;
      }
      RemoveServiceCounts(xs[0], w);
      SparesShrink(w.state, next.state, xs, k);
      RemoveAllFrame(xs[1..], next, k);
      assert RemoveAll(xs, w) == RemoveAll(xs[1..], next);
    }
  }

  /** Sparing a key survives dropping records and dropping the first listed Id. */
  lemma SparesShrink(before: seq<Record>, after: seq<Record>, xs: seq<string>, k: string)
    requires xs != []
    requires multiset(after) <= multiset(before)
    requires Spares(before, xs, k)
    ensures Spares(after, xs[1..], k)
  {
    forall rec | rec in after && rec.id in xs[1..]
      ensures rec.key != k
    {
      assert rec in multiset(after);
      assert rec in before;
      assert rec.id in xs;
    }
  }

  /** Every Id in `toRemove` belongs to a record, counting multiplicity, once the creations are done. */
  lemma RemovalsCovered(state: seq<Record>, added: seq<Record>, needed: seq<string>)
    ensures multiset(ToRemove(Ids(state), needed)) <= multiset(Ids(state + added))
  {
    IdsAppend(state, added);
  }

  /** One reconciliation cycle: all creations, then all removals. */
  function Cycle(w: World, containers: seq<Container>, host: string): (r: World)
    ensures Follows(w, r)
  {
    var actual := Ids(w.state);
    var created := CreateAll(ToCreate(containers, actual), host, w);
    RemovalsCovered(w.state, AllRegistrations(ToCreate(containers, actual), host), ContainerIds(containers));
    var r := RemoveAll(ToRemove(actual, ContainerIds(containers)), created);
    assert Follows(w, created) by {
      assert created.ops[|w.ops|..] == Writes(AllRegistrations(ToCreate(containers, actual), host));
    }
    FollowsTransitive(w, created, r);
    r
  }

  /**
   The state a cycle converges to: every record belongs to a running
   container, and every running container with a published, labelled port
   has a record.
   */
  predicate Converged(w: World, containers: seq<Container>, host: string) {
    && (forall i :: 0 <= i < |w.state| ==> w.state[i].id in ContainerIds(containers))
    && (forall c :: c in containers && Registrations(c, host, c.ports) != [] ==> c.id in Ids(w.state))
  }

  /** Once the removals are done, no record is left whose container is gone. */
  lemma StaleRecordsGone(before: seq<Record>, added: seq<Record>, needed: seq<string>, after: seq<Record>)
    requires forall i :: 0 <= i < |added| ==> added[i].id in needed
    requires multiset(Ids(after)) == multiset(Ids(before + added)) - multiset(ToRemove(Ids(before), needed))
    ensures forall i :: 0 <= i < |after| ==> after[i].id in needed
  {
    IdsAppend(before, added);
    forall x | x in Ids(added)
      ensures x in needed
    {
      var k :| 0 <= k < |added| && Ids(added)[k] == x;
      assert added[k].id in needed;
    }
    forall i | 0 <= i < |after|
      ensures after[i].id in needed
    {
      assert Ids(after)[i] == after[i].id;
      assert multiset(Ids(after))[after[i].id] > 0;
    }
  }

  /** Records of running containers survive the removals, and so do their Ids. */
  lemma LiveRecordsKept(before: seq<Record>, added: seq<Record>, needed: seq<string>, after: seq<Record>)
    requires multiset(Ids(after)) == multiset(Ids(before + added)) - multiset(ToRemove(Ids(before), needed))
    requires forall rec: Record :: rec.id !in ToRemove(Ids(before), needed) ==>
      multiset(after)[rec] == multiset(before + added)[rec]
    ensures forall rec :: rec in before + added && rec.id in needed ==> rec in after
    ensures forall x :: x in needed && x in Ids(before + added) ==> x in Ids(after)
  {
    forall rec | rec in before + added && rec.id in needed
      ensures rec in after
    {
      assert multiset(after)[rec] == multiset(before + added)[rec];
    }
    forall x | x in needed && x in Ids(before + added)
      ensures x in Ids(after)
    {
      assert multiset(Ids(after))[x] == multiset(Ids(before + added))[x];
    }
  }

  /** Every container with a labelled published port has a record once the creations are done. */
  lemma LiveContainersRegistered(w: World, containers: seq<Container>, host: string)
    ensures var added := AllRegistrations(ToCreate(containers, Ids(w.state)), host);
      forall c :: c in containers && Registrations(c, host, c.ports) != [] ==> c.id in Ids(w.state + added)
  {
    var toCreate := ToCreate(containers, Ids(w.state));
    var added := AllRegistrations(toCreate, host);
    IdsAppend(w.state, added);
    forall c | c in containers && Registrations(c, host, c.ports) != []
      ensures c.id in Ids(w.state + added)
    {
      if c.id !in Ids(w.state) {
        assert c in toCreate;
      }
    }
  }

  /** The records a cycle adds all belong to running containers. */
  lemma AddedAreLive(w: World, containers: seq<Container>, host: string)
    ensures var added := AllRegistrations(ToCreate(containers, Ids(w.state)), host);
      forall i :: 0 <= i < |added| ==> added[i].id in ContainerIds(containers)
  {
    var toCreate := ToCreate(containers, Ids(w.state));
    var added := AllRegistrations(toCreate, host);
    forall i | 0 <= i < |added|
      ensures added[i].id in ContainerIds(containers)
    {
      IdOfMember(toCreate, containers, added[i].id);
    }
  }

  /** An Id of a container drawn from `containers` is an Id of `containers`. */
  lemma IdOfMember(sub: seq<Container>, containers: seq<Container>, x: string)
    requires forall c :: c in sub ==> c in containers
    requires x in ContainerIds(sub)
    ensures x in ContainerIds(containers)
  {
    var k :| 0 <= k < |sub| && ContainerIds(sub)[k] == x;
    assert sub[k] in containers;
    var m :| 0 <= m < |containers| && containers[m] == sub[k];
    assert ContainerIds(containers)[m] == x;
  }

  /** What a cycle does to the record list: the new records appended, then the `toRemove` Ids taken out. */
  lemma CycleState(w: World, containers: seq<Container>, host: string)
    ensures var added := AllRegistrations(ToCreate(containers, Ids(w.state)), host);
      var toRemove := ToRemove(Ids(w.state), ContainerIds(containers));
      var after := Cycle(w, containers, host).state;
      && multiset(Ids(after)) == multiset(Ids(w.state + added)) - multiset(toRemove)
      && forall rec: Record :: rec.id !in toRemove ==> multiset(after)[rec] == multiset(w.state + added)[rec]
  {
    var added := AllRegistrations(ToCreate(containers, Ids(w.state)), host);
    RemovalsCovered(w.state, added, ContainerIds(containers));
  }

  /**
   Convergence after one cycle, including the case of a container with
   several records: its Id is in `toRemove` once per record, so all of them
   go. Records of running containers all stay.
   */
  lemma CycleConverges(w: World, containers: seq<Container>, host: string)
    ensures Converged(Cycle(w, containers, host), containers, host)
    ensures forall rec :: rec in w.state && rec.id in ContainerIds(containers) ==> rec in Cycle(w, containers, host).state
  {
    var needed := ContainerIds(containers);
    var added := AllRegistrations(ToCreate(containers, Ids(w.state)), host);
    var after := Cycle(w, containers, host).state;
    CycleState(w, containers, host);
    AddedAreLive(w, containers, host);
    StaleRecordsGone(w.state, added, needed, after);
    LiveRecordsKept(w.state, added, needed, after);
    LiveContainersRegistered(w, containers, host);
    forall c | c in containers && Registrations(c, host, c.ports) != []
      ensures c.id in Ids(after)
    {
      var m :| 0 <= m < |containers| && containers[m] == c;
      assert needed[m] == c.id;
    }
  }

  /**
   The store calls of one cycle: those of the creation fold (the
   delete-then-set pairs of the new records, see `CreateAll`), then one
   `kv.del` per entry of `toRemove`, and nothing else.
   */
  lemma CycleCalls(w: World, containers: seq<Container>, host: string)
    ensures var created := CreateAll(ToCreate(containers, Ids(w.state)), host, w);
      var toRemove := ToRemove(Ids(w.state), ContainerIds(containers));
      var r := Cycle(w, containers, host);
      && Follows(created, r)
      && |r.ops| == |created.ops| + |toRemove|
      && OnlyDeletes(r.ops, |created.ops|)
  {
    var toCreate := ToCreate(containers, Ids(w.state));
    var toRemove := ToRemove(Ids(w.state), ContainerIds(containers));
    var created := CreateAll(toCreate, host, w);
    CycleUnfolds(w, containers, host);
    RemoveAllOnlyDeletes(toRemove, created);
  }

  /** Call `op` deletes the key of a record of `state` whose container is not in `needed`. */
  predicate GoneDelete(state: seq<Record>, needed: seq<string>, op: StoreOp) {
    exists rec :: rec in state && rec.id !in needed && op == Delete(rec.key)
  }

  /** Every call of `ops` from position `from` on is a `GoneDelete`. */
  predicate GoneDeletes(state: seq<Record>, needed: seq<string>, ops: seq<StoreOp>, from: nat) {
    forall i :: from <= i < |ops| ==> GoneDelete(state, needed, ops[i])
  }

  /**
   Every call a cycle makes after the creation loop is a `kv.del` of the key
   of a record that was held before the cycle and whose container has gone.
   */
  lemma CycleDeletesGone(w: World, containers: seq<Container>, host: string)
    ensures GoneDeletes(w.state, ContainerIds(containers), Cycle(w, containers, host).ops,
      |CreateAll(ToCreate(containers, Ids(w.state)), host, w).ops|)
  {
    var needed := ContainerIds(containers);
    var toCreate := ToCreate(containers, Ids(w.state));
    var toRemove := ToRemove(Ids(w.state), needed);
    var added := AllRegistrations(toCreate, host);
    var created := CreateAll(toCreate, host, w);
    CycleRemovalCalls(w, containers, host);
    GoneDeletesFrom(w.state, added, toRemove, needed, Cycle(w, containers, host).ops, |created.ops|);
  }

  /** The calls of a cycle after the creation loop: one per Id of `toRemove`, each deleting a key that Id's record carried. */
  lemma CycleRemovalCalls(w: World, containers: seq<Container>, host: string)
    ensures var needed := ContainerIds(containers);
      var toRemove := ToRemove(Ids(w.state), needed);
      var added := AllRegistrations(ToCreate(containers, Ids(w.state)), host);
      var created := CreateAll(ToCreate(containers, Ids(w.state)), host, w);
      var r := Cycle(w, containers, host);
      && |r.ops| == |created.ops| + |toRemove|
      && created.state == w.state + added
      && (forall i :: 0 <= i < |added| ==> added[i].id in needed)
      && (forall x :: x in toRemove ==> x !in needed)
      && DeletesOf(created.state, toRemove, r.ops, |created.ops|)
  {
    var toRemove := ToRemove(Ids(w.state), ContainerIds(containers));
    var created := CreateAll(ToCreate(containers, Ids(w.state)), host, w);
    CycleUnfolds(w, containers, host);
    RemoveAllCallKeys(toRemove, created);
    AddedAreLive(w, containers, host);
  }

  /** Calls for gone Ids, made on the held records plus live new ones, delete keys of held gone records. */
  lemma GoneDeletesFrom(state: seq<Record>, added: seq<Record>, toRemove: seq<string>, needed: seq<string>, ops: seq<StoreOp>, from: nat)
    requires |ops| == from + |toRemove|
    requires forall x :: x in toRemove ==> x !in needed
    requires forall i :: 0 <= i < |added| ==> added[i].id in needed
    requires DeletesOf(state + added, toRemove, ops, from)
    ensures GoneDeletes(state, needed, ops, from)
  {
    forall i | from <= i < |ops|
      ensures GoneDelete(state, needed, ops[i])
    {
      var op, x := ops[i], toRemove[i - from];
      assert CallDeletes(state + added, x, op);
      var rec :| rec in state + added && rec.id == x && op == Delete(rec.key);
      assert rec.id !in needed;
      assert rec in state;
    }
  }

  /** A cycle is the removal fold run on the world the creation fold leaves. */
  lemma CycleUnfolds(w: World, containers: seq<Container>, host: string)
    ensures var toCreate := ToCreate(containers, Ids(w.state));
      var toRemove := ToRemove(Ids(w.state), ContainerIds(containers));
      var created := CreateAll(toCreate, host, w);
      && multiset(toRemove) <= multiset(Ids(created.state))
      && Cycle(w, containers, host) == RemoveAll(toRemove, created)
  {
    var toCreate := ToCreate(containers, Ids(w.state));
    RemovalsCovered(w.state, AllRegistrations(toCreate, host), ContainerIds(containers));
  }


  /**
   No orphaned keys: after a cycle, the key of every record whose container
   has gone is absent from the store, so the proxy is not left pointing at it.
   */
  lemma CycleDropsGoneKeys(w: World, containers: seq<Container>, host: string)
    ensures forall rec :: rec in w.state && rec.id !in ContainerIds(containers) ==>
      rec.key !in Cycle(w, containers, host).store
  {
    var needed := ContainerIds(containers);
    var toCreate := ToCreate(containers, Ids(w.state));
    var toRemove := ToRemove(Ids(w.state), needed);
    var created := CreateAll(toCreate, host, w);
    var r := Cycle(w, containers, host);
    CycleUnfolds(w, containers, host);
    CycleConverges(w, containers, host);
    RemoveAllDropsKeys(toRemove, created);
    assert w.state <= created.state;
    GoneKeysAbsent(w.state, created.state, r.state, r.store, needed);
  }

  /**
   A cycle leaves the routing of running containers alone: a key that no
   record of a gone container carries and that no new registration writes
   keeps its presence and value.
   */
  lemma CycleFrame(w: World, containers: seq<Container>, host: string, k: string)
    requires forall rec :: rec in w.state && rec.id !in ContainerIds(containers) ==> rec.key != k
    requires !Written(AllRegistrations(ToCreate(containers, Ids(w.state)), host), k)
    ensures k in Cycle(w, containers, host).store <==> k in w.store
    ensures k in w.store ==> Cycle(w, containers, host).store[k] == w.store[k]
  {
    var needed := ContainerIds(containers);
    var toCreate := ToCreate(containers, Ids(w.state));
    var toRemove := ToRemove(Ids(w.state), needed);
    var added := AllRegistrations(toCreate, host);
    var created := CreateAll(toCreate, host, w);
    CycleUnfolds(w, containers, host);
    WritesKeys(added, k);
    ReplayFrame(w.store, Writes(added), k);
    AddedAreLive(w, containers, host);
    SparesAfterCreate(w.state, added, toRemove, needed, k);
    RemoveAllFrame(toRemove, created, k);
  }

  /** Removing gone Ids spares a key that only live records and new records may carry. */
  lemma SparesAfterCreate(state: seq<Record>, added: seq<Record>, toRemove: seq<string>, needed: seq<string>, k: string)
    requires forall rec :: rec in state && rec.id !in needed ==> rec.key != k
    requires forall i :: 0 <= i < |added| ==> added[i].id in needed
    requires forall x :: x in toRemove ==> x !in needed
    ensures Spares(state + added, toRemove, k)
  {
    forall rec | rec in state + added && rec.id in toRemove
      ensures rec.key != k
    {
      assert rec.id !in needed;
    }
  }

  /**
   If every remaining record belongs to `needed`, and every record taken out
   has its key gone, then no record of a gone container has its key left.
   */
  lemma GoneKeysAbsent(before: seq<Record>, created: seq<Record>, after: seq<Record>, store: Store, needed: seq<string>)
    requires before <= created
    requires forall i :: 0 <= i < |after| ==> after[i].id in needed
    requires forall x: Record :: multiset(after)[x] < multiset(created)[x] ==> x.key !in store
    ensures forall rec :: rec in before && rec.id !in needed ==> rec.key !in store
  {
    forall rec | rec in before && rec.id !in needed
      ensures rec.key !in store
    {
      GoneRecordOut(after, needed, rec);
      var k :| 0 <= k < |before| && before[k] == rec;
      assert created[k] == rec;
    }
  }

  /** A record whose Id is not needed cannot be among records that are all needed. */
  lemma GoneRecordOut(after: seq<Record>, needed: seq<string>, rec: Record)
    requires forall i :: 0 <= i < |after| ==> after[i].id in needed
    requires rec.id !in needed
    ensures multiset(after)[rec] == 0
  {
    forall i | 0 <= i < |after|
      ensures after[i] != rec
    {
      assert after[i].id in needed;
    }
  }

  /**
   A converged world is a fixed point: the cycle adds no record, removes
   none and makes no store call. Containers without a labelled port are in
   `toCreate` again, but registering them does nothing.
   */
  lemma ConvergedIsFixpoint(w: World, containers: seq<Container>, host: string)
    requires Converged(w, containers, host)
    ensures Cycle(w, containers, host) == w
  {
    var toCreate := ToCreate(containers, Ids(w.state));
    NothingToCreate(w, containers, host);
    NothingToRemove(w, containers, host);
    CreateNothing(toCreate, host, w);
    assert Cycle(w, containers, host) == RemoveAll([], w);
  }

  /** Containers that yield no record leave the world exactly as it was, store calls included. */
  lemma CreateNothing(cs: seq<Container>, host: string, w: World)
    requires AllRegistrations(cs, host) == []
    ensures CreateAll(cs, host, w) == w
  {
    var r := CreateAll(cs, host, w);
    assert r.state == w.state + [];
    assert r.ops == w.ops + [];
  }

  /** In a converged world every container in `toCreate` yields no record. */
  lemma NothingToCreate(w: World, containers: seq<Container>, host: string)
    requires Converged(w, containers, host)
    ensures AllRegistrations(ToCreate(containers, Ids(w.state)), host) == []
  {
    forall c | c in ToCreate(containers, Ids(w.state))
      ensures Registrations(c, host, c.ports) == []
    {
    }
  }

  /** In a converged world `toRemove` is empty. */
  lemma NothingToRemove(w: World, containers: seq<Container>, host: string)
    requires Converged(w, containers, host)
    ensures ToRemove(Ids(w.state), ContainerIds(containers)) == []
  {
    var toRemove := ToRemove(Ids(w.state), ContainerIds(containers));
    forall x | x in Ids(w.state)
      ensures x in ContainerIds(containers)
    {
      var i :| 0 <= i < |w.state| && Ids(w.state)[i] == x;
      assert w.state[i].id == x;
    }
    assert multiset(toRemove) == multiset{};
    assert |toRemove| == |multiset(toRemove)|;
  }

  /** Idempotence: a second cycle against an unchanged inventory changes nothing. */
  lemma CycleIdempotent(w: World, containers: seq<Container>, host: string)
    ensures Cycle(Cycle(w, containers, host), containers, host) == Cycle(w, containers, host)
  {
    CycleConverges(w, containers, host);
    ConvergedIsFixpoint(Cycle(w, containers, host), containers, host);
  }

  /** One pass of the creation loop leaves the rest of the fold to do. */
  lemma CreateStep(cs: seq<Container>, i: nat, host: string, r: World, target: World)
    requires i < |cs|
    requires CreateAll(cs[i..], host, r) == target
    ensures CreateAll(cs[i + 1..], host, CreateService(cs[i], host, r)) == target
  {
    assert cs[i..][1..] == cs[i + 1..];
  }

  /**
   One pass of the removal loop: the Id it takes has a record (so the
   lookup in `removeService` succeeds), and the Ids still to go stay covered.
   */
  lemma RemoveStep(xs: seq<string>, j: nat, r: World, target: World)
    requires j < |xs|
    requires multiset(xs[j..]) <= multiset(Ids(r.state))
    requires RemoveAll(xs[j..], r) == target
    ensures xs[j] in Ids(r.state)
    ensures multiset(xs[j + 1..]) <= multiset(Ids(RemoveService(xs[j], r).state))
    ensures RemoveAll(xs[j + 1..], RemoveService(xs[j], r)) == target
  {
    RemoveFirstReady(xs[j..], r);
    assert xs[j..][1..] == xs[j + 1..];
  }

  /** `for (let container of toCreate) yield createService(container)` */
  method CreateEach(cs: seq<Container>, host: string, w: World) returns (r: World)
    ensures r == CreateAll(cs, host, w)
  {
    r := w;
    ghost var target := CreateAll(cs, host, w);
    for i := 0 to |cs|
      invariant CreateAll(cs[i..], host, r) == target
    {
      CreateStep(cs, i, host, r, target);
      r := CreateService(cs[i], host, r);
    }
    assert cs[|cs|..] == [];
  }

  /**
   `for (let container of toRemove) yield removeService(container)`: every
   call finds a record, because the Ids still to go never outnumber the
   records that carry them.
   */
  method RemoveEach(xs: seq<string>, w: World) returns (r: World)
    requires multiset(xs) <= multiset(Ids(w.state))
    ensures multiset(Ids(r.state)) == multiset(Ids(w.state)) - multiset(xs)
    ensures r == RemoveAll(xs, w)
  {
    r := w;
    ghost var target := RemoveAll(xs, w);
    for j := 0 to |xs|
      invariant multiset(xs[j..]) <= multiset(Ids(r.state))
      invariant RemoveAll(xs[j..], r) == target
    {
      RemoveStep(xs, j, r, target);
      r := RemoveService(xs[j], r);
    }
    assert xs[|xs|..] == [];
  }

  /**
   `poll()` without the session renewal and the timer: the inventory is the
   `containers` argument, creations run first and removals after, one call at
   a time.
   */
  method Poll(w: World, containers: seq<Container>, host: string) returns (r: World)
    ensures Converged(r, containers, host)
    ensures Follows(w, r)
    ensures r == Cycle(w, containers, host)
  {
    var actual := Ids(w.state);
    var needed := ContainerIds(containers);
    var toCreate := ToCreate(containers, actual);
    var toRemove := ToRemove(actual, needed);
    r := CreateEach(toCreate, host, w);
    RemovalsCovered(w.state, AllRegistrations(toCreate, host), needed);
    r := RemoveEach(toRemove, r);
    CycleConverges(w, containers, host);
  }
}

=== FILE: registrar.dfy ===
/**
 The backend registrar of server.js: how one container port becomes a
 Traefik backend server in Consul (`createService`), and how a record and its
 key are dropped again (`removeService`).
 */
module Registrar {
  import opened Decimal
  import opened KvStore
  import opened Types

  const KeyPrefix: string := "traefik/backends/"
  const LabelPrefix: string := "SERVICE_"

  /** The container label naming the backend of a private port: `'SERVICE_' + port.PrivatePort`. */
  function LabelKey(privatePort: nat): (tag: string)
    ensures |tag| > |LabelPrefix| && tag[..|LabelPrefix|] == LabelPrefix
    ensures AllDigits(tag[|LabelPrefix|..]) && ParseDigits(tag[|LabelPrefix|..]) == privatePort
    ensures tag[|LabelPrefix|] == '0' <==> privatePort == 0
  {
    var digits := NatToString(privatePort);
    ParseNatToString(privatePort);
    assert (LabelPrefix + digits)[|LabelPrefix|..] == digits;
    LabelPrefix + digits
  }

  /** `id.substring(0, 12)`: the first twelve characters, or all of a shorter id. */
  function ShortId(id: string): (s: string)
    ensures |s| == if |id| < 12 then |id| else 12
    ensures s <= id
  {
    if |id| < 12 then id else id[..12]
  }

  /** The Consul key of one backend server. */
  function ServiceKey(backend: string, id: string): (key: string)
    ensures |key| == |KeyPrefix| + |backend| + 9 + |ShortId(id)| + 4
    ensures key[..|KeyPrefix|] == KeyPrefix
    ensures key[|KeyPrefix|..|KeyPrefix| + |backend|] == backend
    ensures key[|key| - 4..] == "/url"
  {
    var key := KeyPrefix + backend + "/servers/" + ShortId(id) + "/url";
    assert key == KeyPrefix + (backend + ("/servers/" + ShortId(id) + "/url"));
    assert key == (KeyPrefix + backend + "/servers/" + ShortId(id)) + "/url";
    key
  }

  /** The value stored under a backend server's key. */
  function Url(host: string, port: nat): (u: string)
    ensures |u| > 8 + |host| && u[..7] == "http://"
    ensures u[7..7 + |host|] == host && u[7 + |host|] == ':'
    ensures AllDigits(u[8 + |host|..]) && ParseDigits(u[8 + |host|..]) == port
    ensures u[8 + |host|] == '0' <==> port == 0
  {
    var digits := NatToString(port);
    ParseNatToString(port);
    var u := "http://" + host + ":" + digits;
    assert u == "http://" + (host + (":" + digits));
    assert u[8 + |host|..] == digits;
    u
  }

  /** The position of the first `c` in `s`, or `|s|` when there is none. */
  function IndexOf(s: string, c: char): (i: nat)
    ensures i <= |s|
    ensures i < |s| ==> s[i] == c
    ensures forall j :: 0 <= j < i ==> s[j] != c
    decreases |s|
  {
    if s == [] || s[0] == c then 0 else 1 + IndexOf(s[1..], c)
  }

  /** Reads a backend server key back into its backend name and short container Id. */
  function ParseKey(key: string): Option<(string, string)> {
    var servers := "/servers/";
    if |key| < |KeyPrefix| + 4 || key[..|KeyPrefix|] != KeyPrefix || key[|key| - 4..] != "/url" then None
    else
      var mid := key[|KeyPrefix|..|key| - 4];
      var i := IndexOf(mid, '/');
      var rest := mid[i..];
      if |rest| >= |servers| && rest[..|servers|] == servers then Some((mid[..i], rest[|servers|..])) else None
  }

  /**
   The key format is unambiguous: as long as the backend name has no `/`,
   the key gives back the backend name and the short container Id.
   */
  lemma ServiceKeyParses(backend: string, id: string)
    requires forall i :: 0 <= i < |backend| ==> backend[i] != '/'
    ensures ParseKey(ServiceKey(backend, id)) == Some((backend, ShortId(id)))
  {
    var sid := ShortId(id);
    assert ServiceKey(backend, id) == KeyPrefix + (backend + "/servers/" + sid) + "/url";
    ComposedKeyParses(backend, sid);
  }

  /** `ParseKey` takes a key built from a backend without `/` and a short Id apart again. */
  lemma ComposedKeyParses(backend: string, sid: string)
    requires forall i :: 0 <= i < |backend| ==> backend[i] != '/'
    ensures ParseKey(KeyPrefix + (backend + "/servers/" + sid) + "/url") == Some((backend, sid))
  {
    var mid := backend + "/servers/" + sid;
    KeyEnds(mid);
    MidSplits(backend, sid);
  }

  /** The prefix and the `/url` suffix of a key come off again, leaving the middle. */
  lemma KeyEnds(mid: string)
    ensures var key := KeyPrefix + mid + "/url";
      && |key| >= |KeyPrefix| + 4
      && key[..|KeyPrefix|] == KeyPrefix
      && key[|key| - 4..] == "/url"
      && key[|KeyPrefix|..|key| - 4] == mid
  {
  }

  /** The first `/` of `backend/servers/sid` ends the backend name. */
  lemma MidSplits(backend: string, sid: string)
    requires forall i :: 0 <= i < |backend| ==> backend[i] != '/'
    ensures var mid := backend + "/servers/" + sid;
      var i := IndexOf(mid, '/');
      && i == |backend|
      && mid[..i] == backend
      && mid[i..] == "/servers/" + sid
  {
    var servers := "/servers/";
    var mid := backend + servers + sid;
    assert mid[|backend|] == '/';
    assert forall j :: 0 <= j < |backend| ==> mid[j] == backend[j];
    assert mid[..|backend|] == backend;
    assert mid[|backend|..] == servers + sid;
  }

  /** Two backends without `/` share a key only when they are the same backend on the same short Id. */
  lemma ServiceKeyInjective(b1: string, id1: string, b2: string, id2: string)
    requires forall i :: 0 <= i < |b1| ==> b1[i] != '/'
    requires forall i :: 0 <= i < |b2| ==> b2[i] != '/'
    ensures ServiceKey(b1, id1) == ServiceKey(b2, id2) ==> b1 == b2 && ShortId(id1) == ShortId(id2)
  {
    ServiceKeyParses(b1, id1);
    ServiceKeyParses(b2, id2);
  }

  /** The stored URL determines the public port. */
  lemma UrlInjective(host: string, a: nat, b: nat)
    ensures Url(host, a) == Url(host, b) ==> a == b
  {
    if Url(host, a) == Url(host, b) {
      var n := |"http://" + host + ":"|;
      assert Url(host, a)[n..] == NatToString(a);
      assert Url(host, b)[n..] == NatToString(b);
      NatToStringInjective(a, b);
    }
  }

  /** A worked example of the key written for one port. */
  lemma KeyFormatExample()
    ensures ServiceKey("web", "abcdef0123456789") == "traefik/backends/web/servers/abcdef012345/url"
  {
    ShortIdExample();
  }

  /** The example Id shortens to its first twelve characters. */
  lemma ShortIdExample()
    ensures ShortId("abcdef0123456789") == "abcdef012345"
  {
  }

  /** A worked example of the value written for one port. */
  lemma UrlFormatExample()
    ensures Url("10.0.0.5", 32000) == "http://10.0.0.5:32000"
  {
    PortRendering();
    assert Url("10.0.0.5", 32000) == "http://" + "10.0.0.5" + ":" + "32000";
  }

  /** The port of the URL example renders as its five digits. */
  lemma PortRendering()
    ensures NatToString(32000) == "32000"
  {
    assert DigitChar(0) == '0' && DigitChar(2) == '2' && DigitChar(3) == '3';
    assert NatToString(3) == "3";
    assert NatToString(32) == "32";
    assert NatToString(320) == "320";
    assert NatToString(3200) == "3200";
  }

  /** The backend a port is registered under: only a published port whose label is present and non-empty has one. */
  function BackendOf(c: Container, p: PortBinding): (b: Option<string>)
    ensures b.Some? <==> p.publicPort != 0 && LabelKey(p.privatePort) in c.labels && c.labels[LabelKey(p.privatePort)] != ""
    ensures b.Some? ==> b.value == c.labels[LabelKey(p.privatePort)]
  {
    if p.publicPort == 0 then None
    else if LabelKey(p.privatePort) in c.labels && c.labels[LabelKey(p.privatePort)] != "" then
      Some(c.labels[LabelKey(p.privatePort)])
    else None
  }

  /** The object `createService` pushes for a port registered under `backend`. */
  function RecordOf(c: Container, host: string, p: PortBinding, backend: string): (r: Record)
    ensures r.id == c.id && r.name == backend && r.host == host && r.port == p.publicPort
    ensures (forall i :: 0 <= i < |backend| ==> backend[i] != '/') ==> ParseKey(r.key) == Some((backend, ShortId(c.id)))
  {
    KeyParsesWhenSlashFree(backend, c.id);
    Record(c.id, backend, host, p.publicPort, ServiceKey(backend, c.id))
  }

  /** `ServiceKeyParses`, stated for every backend name under its hypothesis. */
  lemma KeyParsesWhenSlashFree(backend: string, id: string)
    ensures (forall i :: 0 <= i < |backend| ==> backend[i] != '/') ==> ParseKey(ServiceKey(backend, id)) == Some((backend, ShortId(id)))
  {
    if forall i :: 0 <= i < |backend| ==> backend[i] != '/' {
      ServiceKeyParses(backend, id);
    }
  }

  /**
   The records `createService` pushes for `ports`, in port order, with no
   store in sight: the reference its store effects are stated against.
   */
  function Registrations(c: Container, host: string, ports: seq<PortBinding>): (r: seq<Record>)
    ensures |r| <= |ports|
    ensures forall i :: 0 <= i < |r| ==> r[i].id == c.id && r[i].host == host
    decreases |ports|
  {
    if ports == [] then []
    else
      var here := match BackendOf(c, ports[0])
        case Some(b) => [RecordOf(c, host, ports[0], b)]
        case None => [];
      here + Registrations(c, host, ports[1..])
  }

  /** The store calls that registering `regs` makes: a delete and then a set, per record. */
  function Writes(regs: seq<Record>): (ops: seq<StoreOp>)
    ensures |ops| == 2 * |regs|
    decreases |regs|
  {
    if regs == [] then []
    else
      var last := regs[|regs| - 1];
      Writes(regs[..|regs| - 1]) + [Delete(last.key), Put(last.key, Url(last.host, last.port))]
  }

  /** Record `i` of `regs` owns calls `2 * i` and `2 * i + 1`: the delete and then the set of its key. */
  lemma {:induction false} WritesPairs(regs: seq<Record>)
    ensures forall i :: 0 <= i < |regs| ==>
      && Writes(regs)[2 * i] == Delete(regs[i].key)
      && Writes(regs)[2 * i + 1] == Put(regs[i].key, Url(regs[i].host, regs[i].port))
    decreases |regs|
  {
    if regs != [] {
      var init := regs[..|regs| - 1];
      var last := regs[|regs| - 1];
      var pre := Writes(init);
      WritesPairs(init);
      assert Writes(regs) == pre + [Delete(last.key), Put(last.key, Url(last.host, last.port))];
      forall i | 0 <= i < |regs|
        ensures Writes(regs)[2 * i] == Delete(regs[i].key)
        ensures Writes(regs)[2 * i + 1] == Put(regs[i].key, Url(regs[i].host, regs[i].port))
      {
        if i < |init| {
          assert regs[i] == init[i];
          assert Writes(regs)[2 * i] == pre[2 * i];
          assert Writes(regs)[2 * i + 1] == pre[2 * i + 1];
        }
      }
    }
  }

  /** Some record of `regs` has key `k`. */
  predicate Written(regs: seq<Record>, k: string) {
    exists i :: 0 <= i < |regs| && regs[i].key == k
  }

  /** Record `j` is the last one of `regs` with its key. */
  predicate LastWithKey(regs: seq<Record>, j: int)
    requires 0 <= j < |regs|
  {
    forall i :: j < i < |regs| ==> regs[i].key != regs[j].key
  }

  /**
   A record is registered for `ports` exactly when some port in `ports` has
   a backend, and the record is that port's.
   */
  lemma {:induction false} RegistrationsMembers(c: Container, host: string, ports: seq<PortBinding>, rec: Record)
    ensures rec in Registrations(c, host, ports) <==>
      exists p :: p in ports && BackendOf(c, p) == Some(rec.name) && rec == RecordOf(c, host, p, rec.name)
    decreases |ports|
  {
    if ports != [] {
      RegistrationsMembers(c, host, ports[1..], rec);
      var p := ports[0];
      if rec in Registrations(c, host, ports[1..]) {
        var q :| q in ports[1..] && BackendOf(c, q) == Some(rec.name) && rec == RecordOf(c, host, q, rec.name);
        assert q in ports;
      }
      if exists q :: q in ports && BackendOf(c, q) == Some(rec.name) && rec == RecordOf(c, host, q, rec.name) {
        var q :| q in ports && BackendOf(c, q) == Some(rec.name) && rec == RecordOf(c, host, q, rec.name);
        if q != p {
          assert q in ports[1..];
        }
      }
    }
  }

  lemma {:induction false} RegistrationsAppend(c: Container, host: string, a: seq<PortBinding>, b: seq<PortBinding>)
    ensures Registrations(c, host, a + b) == Registrations(c, host, a) + Registrations(c, host, b)
    decreases |a|
  {
    if a == [] {
      assert a + b == b;
    } else {
      assert (a + b)[1..] == a[1..] + b;
      RegistrationsAppend(c, host, a[1..], b);
    }
  }

  /**
   Label gating, port by port: a port adds exactly one record, at the end,
   when its public port is set and its `SERVICE_<private port>` label is a
   non-empty string, and adds nothing otherwise. The label and the record are
   spelled out literally, rather than through `LabelKey` and `RecordOf`, so
   that the statement shows the exact text the loop uses.
   */
  lemma LabelGating(c: Container, host: string, ports: seq<PortBinding>, p: PortBinding)
    ensures var tag := LabelPrefix + NatToString(p.privatePort);
      p.publicPort != 0 && tag in c.labels && c.labels[tag] != "" ==>
        Registrations(c, host, ports + [p]) ==
          Registrations(c, host, ports) +
            [Record(c.id, c.labels[tag], host, p.publicPort, KeyPrefix + c.labels[tag] + "/servers/" + ShortId(c.id) + "/url")]
    ensures var tag := LabelPrefix + NatToString(p.privatePort);
      !(p.publicPort != 0 && tag in c.labels && c.labels[tag] != "") ==>
        Registrations(c, host, ports + [p]) == Registrations(c, host, ports)
  {
    RegistrationsAppend(c, host, ports, [p]);
    assert [p][1..] == [];
  }

  /** Each port consults its own label: distinct private ports have distinct label keys. */
  lemma LabelKeyInjective(a: nat, b: nat)
    ensures LabelKey(a) == LabelKey(b) ==> a == b
  {
    if LabelKey(a) == LabelKey(b) {
      assert LabelKey(a)[|LabelPrefix|..] == NatToString(a);
      assert LabelKey(b)[|LabelPrefix|..] == NatToString(b);
      NatToStringInjective(a, b);
    }
  }

  lemma {:induction false} WritesAppend(a: seq<Record>, b: seq<Record>)
    ensures Writes(a + b) == Writes(a) + Writes(b)
    decreases |b|
  {
    if b == [] {
      assert a + b == a;
    } else {
      assert (a + b)[..|a + b| - 1] == a + b[..|b| - 1];
      WritesAppend(a, b[..|b| - 1]);
    }
  }

  /** The calls made for `regs` name exactly the keys of `regs`. */
  lemma {:induction false} WritesKeys(regs: seq<Record>, k: string)
    ensures Untouched(Writes(regs), k) <==> !Written(regs, k)
    decreases |regs|
  {
    if regs != [] {
      var init := regs[..|regs| - 1];
      var last := regs[|regs| - 1];
      WritesKeys(init, k);
      var tail := [Delete(last.key), Put(last.key, Url(last.host, last.port))];
      assert Writes(regs) == Writes(init) + tail;
      UntouchedAppend(Writes(init), tail, k);
      assert Untouched(tail, k) <==> last.key != k by {
        assert tail[0].key == last.key && tail[1].key == last.key;
      }
      assert regs == init + [last];
      WrittenSnoc(init, last, k);
    }
  }

  /** No call of `a + b` names `k` iff none of `a` and none of `b` does. */
  lemma UntouchedAppend(a: seq<StoreOp>, b: seq<StoreOp>, k: string)
    ensures Untouched(a + b, k) <==> Untouched(a, k) && Untouched(b, k)
  {
    if Untouched(a + b, k) {
      forall i | 0 <= i < |a| ensures a[i].key != k {
        assert (a + b)[i] == a[i];
      }
      forall i | 0 <= i < |b| ensures b[i].key != k {
        assert (a + b)[|a| + i] == b[i];
      }
    }
    if Untouched(a, k) && Untouched(b, k) {
      forall i | 0 <= i < |a + b| ensures (a + b)[i].key != k {
        if i < |a| {
          assert (a + b)[i] == a[i];
        } else {
          assert (a + b)[i] == b[i - |a|];
        }
      }
    }
  }

  /** A key is written by `init + [last]` iff `init` writes it or `last` has it. */
  lemma WrittenSnoc(init: seq<Record>, last: Record, k: string)
    ensures Written(init + [last], k) <==> Written(init, k) || last.key == k
  {
    var regs := init + [last];
    if Written(regs, k) {
      var i :| 0 <= i < |regs| && regs[i].key == k;
      if i < |init| {
        assert init[i].key == k;
      }
    }
    if Written(init, k) {
      var i :| 0 <= i < |init| && init[i].key == k;
      assert regs[i].key == k;
    }
    if last.key == k {
      assert regs[|init|].key == k;
    }
  }

  /** After registering `regs`, a key holds the URL of the last record written under it. */
  lemma {:induction false} LastWriteWins(store: Store, regs: seq<Record>, j: int)
    requires 0 <= j < |regs|
    requires LastWithKey(regs, j)
    ensures regs[j].key in Replay(store, Writes(regs))
    ensures Replay(store, Writes(regs))[regs[j].key] == Url(regs[j].host, regs[j].port)
    decreases |regs|
  {
    var init := regs[..|regs| - 1];
    var last := regs[|regs| - 1];
    var tail := [Delete(last.key), Put(last.key, Url(last.host, last.port))];
    ReplayAppend(store, Writes(init), tail);
    var mid := Replay(store, Writes(init));
    assert tail[..1] == [Delete(last.key)];
    assert [Delete(last.key)][..0] == [];
    assert Replay(mid, [Delete(last.key)]) == Step(mid, Delete(last.key));
    assert Replay(mid, tail) == Step(Step(mid, Delete(last.key)), tail[1]);
    if j < |regs| - 1 {
      assert LastWithKey(init, j);
      LastWriteWins(store, init, j);
      assert last.key != regs[j].key;
    }
  }

  /**
   One pass of the loop in `createService(container)`: a published port
   whose `SERVICE_<private port>` label is a non-empty string gets its key
   deleted then set, and its record pushed; any other port changes nothing.
   The body follows the loop's statements one by one and builds the label,
   key and URL inline. It does not call `BackendOf` or `RecordOf`, so the
   contract below and `PortStepRegisters` relate two separate definitions.
   */
  function PortStep(c: Container, host: string, p: PortBinding, w: World): (r: World)
    ensures BackendOf(c, p).None? ==> r == w
    ensures BackendOf(c, p).Some? ==>
      var rec := RecordOf(c, host, p, BackendOf(c, p).value);
      && r.state == w.state + [rec]
      && rec.key in r.store && r.store[rec.key] == Url(host, p.publicPort)
      && r.ops == w.ops + [Delete(rec.key), Put(rec.key, Url(host, p.publicPort))]
  {
    var tag := LabelPrefix + NatToString(p.privatePort);
    if p.publicPort == 0 || tag !in c.labels || c.labels[tag] == "" then w
    else
      var backend := c.labels[tag];
      var key := KeyPrefix + backend + "/servers/" + ShortId(c.id) + "/url";
      var value := "http://" + host + ":" + NatToString(p.publicPort);
      World(w.state + [Record(c.id, backend, host, p.publicPort, key)],
            (w.store - {key})[key := value],
            w.ops + [Delete(key), Put(key, value)])
  }

  /** One loop pass does what registering the port's records prescribes. */
  lemma PortStepRegisters(c: Container, host: string, p: PortBinding, w: World)
    ensures var regs := Registrations(c, host, [p]);
      && PortStep(c, host, p, w).state == w.state + regs
      && PortStep(c, host, p, w).ops == w.ops + Writes(regs)
      && PortStep(c, host, p, w).store == Replay(w.store, Writes(regs))
  {
    var regs := Registrations(c, host, [p]);
    assert [p][1..] == [];
    assert Registrations(c, host, [p][1..]) == [];
    match BackendOf(c, p)
    case None =>
      assert regs == [];
    case Some(b) =>
      var rec := RecordOf(c, host, p, b);
      assert regs == [rec];
      assert regs[..0] == [];
      var ops := [Delete(rec.key), Put(rec.key, Url(rec.host, rec.port))];
      assert Writes(regs) == ops;
      assert ops[..1] == [Delete(rec.key)];
      assert [Delete(rec.key)][..0] == [];
      assert Replay(w.store, [Delete(rec.key)]) == w.store - {rec.key};
      assert Replay(w.store, ops) == (w.store - {rec.key})[rec.key := Url(rec.host, rec.port)];
  }

  /** What one loop pass followed by the rest of the loop amounts to. */
  lemma PortStepThenRest(c: Container, host: string, ports: seq<PortBinding>, w: World, r: World)
    requires ports != []
    requires var next := PortStep(c, host, ports[0], w);
      var rest := Registrations(c, host, ports[1..]);
      && r.state == next.state + rest
      && r.ops == next.ops + Writes(rest)
      && r.store == Replay(next.store, Writes(rest))
    ensures r.state == w.state + Registrations(c, host, ports)
    ensures r.ops == w.ops + Writes(Registrations(c, host, ports))
    ensures r.store == Replay(w.store, Writes(Registrations(c, host, ports)))
  {
    var here := Registrations(c, host, [ports[0]]);
    var rest := Registrations(c, host, ports[1..]);
    PortStepRegisters(c, host, ports[0], w);
    assert Registrations(c, host, ports) == here + rest by {
      RegistrationsAppend(c, host, [ports[0]], ports[1..]);
      assert [ports[0]] + ports[1..] == ports;
    }
    var wh, wr := Writes(here), Writes(rest);
    assert r.state == (w.state + here) + rest;
    SeqAssoc(w.state, here, rest);
    assert r.ops == (w.ops + wh) + wr;
    SeqAssoc(w.ops, wh, wr);
    WritesAppend(here, rest);
    ReplayAppend(w.store, wh, wr);
  }

  /**
   `createService(container)` restricted to `ports`: the loop over the
   ports, in order.
   */
  function CreatePorts(c: Container, host: string, ports: seq<PortBinding>, w: World): (r: World)
    ensures r.state == w.state + Registrations(c, host, ports)
    ensures r.ops == w.ops + Writes(Registrations(c, host, ports))
    ensures r.store == Replay(w.store, Writes(Registrations(c, host, ports)))
    decreases |ports|
  {
    if ports == [] then w
    else
      var r := CreatePorts(c, host, ports[1..], PortStep(c, host, ports[0], w));
      PortStepThenRest(c, host, ports, w, r);
      r
  }

  /**
   `createService(container)`: the container's gated records are appended in
   port order, and exactly their delete-then-set calls are made.
   */
  function CreateService(c: Container, host: string, w: World): (r: World)
    ensures r.state == w.state + Registrations(c, host, c.ports)
    ensures r.ops == w.ops + Writes(Registrations(c, host, c.ports))
    ensures r.store == Replay(w.store, Writes(Registrations(c, host, c.ports)))
  {
    CreatePorts(c, host, c.ports, w)
  }

  /**
   The effect of `createService` on the store: keys it does not write are
   unchanged, and each written key holds the URL of the last record written
   under it. Existing records stay, as a prefix of the new list.
   */
  lemma CreateServiceEffect(c: Container, host: string, w: World)
    ensures var regs := Registrations(c, host, c.ports);
      var r := CreateService(c, host, w);
      && r.state[..|w.state|] == w.state
      && r.state[|w.state|..] == regs
      && (forall k :: !Written(regs, k) ==>
            (k in r.store <==> k in w.store) && (k in w.store ==> r.store[k] == w.store[k]))
      && (forall j :: 0 <= j < |regs| && LastWithKey(regs, j) ==>
            regs[j].key in r.store && r.store[regs[j].key] == Url(regs[j].host, regs[j].port))
  {
    var regs := Registrations(c, host, c.ports);
    var r := CreateService(c, host, w);
    forall k | !Written(regs, k)
      ensures (k in r.store <==> k in w.store) && (k in w.store ==> r.store[k] == w.store[k])
    {
      WritesKeys(regs, k);
      ReplayFrame(w.store, Writes(regs), k);
    }
    forall j | 0 <= j < |regs| && LastWithKey(regs, j)
      ensures regs[j].key in r.store && r.store[regs[j].key] == Url(regs[j].host, regs[j].port)
    {
      LastWriteWins(w.store, regs, j);
    }
  }

  /** `state.findIndex(o => o.Id == id)` when some record matches. */
  function FirstIndex(state: seq<Record>, id: string): (i: nat)
    requires id in Ids(state)
    ensures i < |state| && state[i].id == id
    ensures forall j :: 0 <= j < i ==> state[j].id != id
    decreases |state|
  {
    if state[0].id == id then 0
    else
      assert id in Ids(state[1..]) by {
        var k :| 0 <= k < |state| && Ids(state)[k] == id;
        assert Ids(state[1..])[k - 1] == id;
      }
      1 + FirstIndex(state[1..], id)
  }

  /**
   `state.splice(i, 1)`: the list without its element `i`; putting that
   element back at `i` restores the list, and one copy of it is all that is lost.
   */
  function RemoveAt(s: seq<Record>, i: nat): (r: seq<Record>)
    requires i < |s|
    ensures |r| + 1 == |s|
    ensures s == r[..i] + [s[i]] + r[i..]
    ensures multiset(r) == multiset(s) - multiset{s[i]}
  {
    var r := s[..i] + s[i + 1..];
    assert r[..i] == s[..i] && r[i..] == s[i + 1..];
    RemoveAtCounts(s, i);
    r
  }

  /** Dropping element `i` takes exactly one copy of it, and of its Id, out of the list. */
  lemma RemoveAtCounts(s: seq<Record>, i: nat)
    requires i < |s|
    ensures multiset(s[..i] + s[i + 1..]) == multiset(s) - multiset{s[i]}
    ensures multiset(Ids(s[..i] + s[i + 1..])) == multiset(Ids(s)) - multiset{s[i].id}
  {
    var a, b := s[..i], s[i + 1..];
    assert s == a + [s[i]] + b;
    IdsAppend(a + [s[i]], b);
    IdsAppend(a, [s[i]]);
    IdsAppend(a, b);
    assert Ids([s[i]]) == [s[i].id];
    assert multiset(Ids(s)) == multiset(Ids(a)) + multiset{s[i].id} + multiset(Ids(b));
  }

  /**
   `removeService(id)`: the first record with that Id leaves the list and its
   key leaves the store. The source reads `state[index].Name` before anything
   else, so with no matching record it throws; that case is excluded here.
   */
  function RemoveService(id: string, w: World): (r: World)
    requires id in Ids(w.state)
    ensures |r.state| + 1 == |w.state|
    ensures var i := FirstIndex(w.state, id);
      && w.state == r.state[..i] + [w.state[i]] + r.state[i..]
      && multiset(r.state) == multiset(w.state) - multiset{w.state[i]}
      && r.ops == w.ops + [Delete(w.state[i].key)]
      && w.state[i].key !in r.store
      && (forall k :: k != w.state[i].key ==>
            (k in r.store <==> k in w.store) && (k in r.store ==> r.store[k] == w.store[k]))
  {
    var i := FirstIndex(w.state, id);
    var gone := w.state[i];
    World(RemoveAt(w.state, i), w.store - {gone.key}, w.ops + [Delete(gone.key)])
  }

  /**
   What `removeService(id)` takes out of the record list: one copy of `id`
   among the Ids, and no record carrying any other Id.
   */
  lemma RemoveServiceCounts(id: string, w: World)
    requires id in Ids(w.state)
    ensures var r := RemoveService(id, w);
      && multiset(Ids(r.state)) == multiset(Ids(w.state)) - multiset{id}
      && multiset(r.state) <= multiset(w.state)
      && forall rec: Record :: rec.id != id ==> multiset(r.state)[rec] == multiset(w.state)[rec]
  {
    var i := FirstIndex(w.state, id);
    assert RemoveService(id, w).state == RemoveAt(w.state, i);
    RemoveAtOthers(w.state, i);
  }

  /** Dropping element `i` leaves every record with another Id as often as it was. */
  lemma RemoveAtOthers(s: seq<Record>, i: nat)
    requires i < |s|
    ensures var r := RemoveAt(s, i);
      && multiset(Ids(r)) == multiset(Ids(s)) - multiset{s[i].id}
      && multiset(r) <= multiset(s)
      && forall rec: Record :: rec.id != s[i].id ==> multiset(r)[rec] == multiset(s)[rec]
  {
    var r := RemoveAt(s, i);
    assert r == s[..i] + s[i + 1..];
    RemoveAtCounts(s, i);
    forall rec: Record | rec.id != s[i].id
      ensures multiset(r)[rec] == multiset(s)[rec]
    {
      assert rec != s[i];
    }
  }
}

=== FILE: types.dfy ===
/**
 The entities the sidecar works on: Docker's container descriptors (read
 only), the registration records it keeps in its `state` list, and the
 world one reconciliation step changes — that list, the Consul store and the
 log of store calls made so far.
 */
module Types {
  import opened KvStore

  datatype Option<+T> = None | Some(value: T)

  /** A Docker port binding; `publicPort == 0` stands for an unpublished port (JavaScript `undefined`). */
  datatype PortBinding = PortBinding(privatePort: nat, publicPort: nat)

  /** A running container as `docker.listContainers` reports it. */
  datatype Container = Container(id: string, ports: seq<PortBinding>, labels: map<string, string>)

  /** One registered backend server: the object `createService` pushes onto `state`. */
  datatype Record = Record(id: string, name: string, host: string, port: nat, key: string)

  /** The mutable state of the process: the record list, the store, and every store call made. */
  datatype World = World(state: seq<Record>, store: Store, ops: seq<StoreOp>)

  /** `state.map(o => o.Id)` */
  function Ids(state: seq<Record>): (r: seq<string>)
    ensures |r| == |state|
    ensures forall i :: 0 <= i < |state| ==> r[i] == state[i].id
  {
    seq(|state|, i requires 0 <= i < |state| => state[i].id)
  }

  /** `containers.map(o => o.Id)` */
  function ContainerIds(containers: seq<Container>): (r: seq<string>)
    ensures |r| == |containers|
    ensures forall i :: 0 <= i < |containers| ==> r[i] == containers[i].id
  {
    seq(|containers|, i requires 0 <= i < |containers| => containers[i].id)
  }

  lemma SeqAssoc<T>(a: seq<T>, b: seq<T>, c: seq<T>)
    ensures (a + b) + c == a + (b + c)
  {
  }

  lemma IdsAppend(a: seq<Record>, b: seq<Record>)
    ensures Ids(a + b) == Ids(a) + Ids(b)
  {
    assert forall i :: 0 <= i < |a + b| ==> Ids(a + b)[i] == (Ids(a) + Ids(b))[i];
  }
}
